=== FILE: README.md ===
# Subscription service core in Dafny

This project models the domain logic of a small subscription service written in Go.
The service keeps one relational table of user subscriptions. Each record is a service
name, a price, a user UUID and a billing period `[start, end)` that starts and ends on
month boundaries. Three pure components sit under its HTTP and SQL glue, and the model
covers all three:

- **The "MM-YYYY" codec.** `ParseMonthYear` reads a month-year string: a split-on-dash
  guard, then Go's `time.Parse` with layout `"01-2006"`. The response mappers render
  dates back with `Format("01-2006")`.
- **The subscription store.** `SubscriptionRepo` has `Create`, `OverlapCheck`,
  `RenewOrExtend`, `GetCost`, `Delete`, `GetByID`, `GetByUserID` and `GetAll`. Each SQL
  statement becomes one atomic transition on an abstract table: the rows in insertion
  order plus the next value of the id sequence. `RenewOrExtend` reads the clock twice, so
  it takes two parameters: `now` for the comparison and `later` for the new start.
- **Error classification and the admin gate.** `WriteError` maps an error to the HTTP
  status, message and details of the JSON error body. `AdminSecretMiddleware` lets a
  request through only when its `secret-key` header equals the configured secret.

Instants are integers: seconds since 0000-01-01T00:00:00Z in the proleptic Gregorian
calendar, which is the calendar Go uses. Months have their real lengths, so a renewal
copies real durations. `Calendar.MonthStart` maps a (year, month) pair to its first
instant and is strictly increasing. `Calendar.MonthOf` maps an instant back to the month
that contains it. `Calendar.AddOneMonth` is `AddDate(0, 1, 0)`.

Files and modules follow the source:

| file | module | models |
|---|---|---|
| `errors.dfy` | `Errors` | the sentinel errors as `Kind`s; `Result`, `Option` and `Outcome` |
| `calendar.dfy` | `Calendar` | the parts of Go's `time` package the service uses |
| `month_year.dfy` | `MonthYear` | `ParseMonthYear` and `Format("01-2006")` |
| `write_error.dfy` | `HttpErrors` | `WriteError` |
| `models.dfy` | `Models` | records, requests, responses and their conversions |
| `subscription_repo.dfy` | `SubscriptionRepo` | the repository over an abstract table |
| `middleware.dfy` | `Middleware` | `AdminSecretMiddleware` |
| `service.dfy` | `Service` | how `WriteError` classifies each repository error |

In these places the model follows the code rather than what a reader might expect:

- `Create` accepts an end date equal to the start date, because the check is `Before`
  (internal/repository/pg/subscription_repo.go:43). The stored period is then empty.
- `GetCost` over no matching rows fails, because SQL `SUM` over no rows is NULL and
  cannot be scanned into a Go `int` (internal/repository/pg/subscription_repo.go:197-198).
  It does not return 0.
- `Delete` removes the row physically (internal/repository/pg/subscription_repo.go:206).
  The overlap check never reads the deleted flag.
- `RenewOrExtend` on an absent id returns an unclassified error, which `WriteError`
  classifies as 500 rather than 404 (internal/repository/pg/subscription_repo.go:150-151).
- A rejected admin request gets 500, not the 401 that
  internal/middleware/middleware.go:11-12 promises. See Findings.
- An empty configured secret lets through only the requests whose header is missing or
  empty. A request that sends any non-empty header is still rejected.

## Model

| member | source | states |
|---|---|---|
| MonthYear.ParseMonthYear | internal/utils/utils.go:15-25 | input that does not split into exactly two parts on `-` fails with the guard's error; every parse failure wraps no sentinel |
| MonthYear.ParseAcceptsExactly | internal/utils/utils.go:17-24 | the parser accepts exactly two digits forming a month 01–12, a dash and four digits; on success it yields day 1, 00:00 of that month |
| MonthYear.RejectsMalformed | internal/utils/utils.go:17-24 | "", "012025", "01-20-25", "13-2025", "00-2025", "1-2025", "01-25" and "01-2025x" are all refused |
| MonthYear.ParsesJanuary2025 | internal/utils/utils.go:23-24 | "01-2025" parses to the first instant of January 2025 |
| MonthYear.ParseInjective | internal/utils/utils.go:23-24 | distinct accepted strings parse to distinct instants |
| MonthYear.FormatThenParse | internal/models/models.go:59-60 | for a four-digit year, parsing the rendered date gives the first instant of that date's month |
| MonthYear.FormatNamedMonth | internal/models/models.go:59-60 | an accepted string is exactly the rendering of the instant it parses to |
| MonthYear.SameMonthSameText | internal/models/models.go:59-60 | all instants of one month render identically, so day and time of day are dropped |
| MonthYear.LongYearsDoNotRoundTrip | internal/models/models.go:59-60 | a year past 9999 renders with five or more digits, and the parser refuses the result |
| Calendar.AddOneMonthOnMonthStart | internal/repository/pg/subscription_repo.go:36 | adding one month to a month start gives the next month's start: December rolls over to January of the next year |
| Models.ResponseRendersMonths | internal/models/models.go:53-62 | the response copies ID, service, price and user unchanged, and, for four-digit years, both date strings parse back to the first instant of their months |
| Models.NewAdminSubscriptionResponse | internal/models/models.go:64-74 | the admin response has the same fields as the user response, plus the deleted flag copied verbatim |
| Models.RequestToSubscription | internal/models/models.go:78-86 | the record copies service, price and user, takes the given dates verbatim, and has id 0 and deleted false |
| HttpErrors.WriteError | internal/utils/utils.go:41-63 | every error gets exactly one status in {400, 404, 409, 500}. 400 iff decoding or invalid input, 404 iff not found, 409 iff already exists, 500 otherwise. Details carry the error text only for invalid input and already exists |
| HttpErrors.TextHiddenUnlessValidation | internal/utils/utils.go:48-62 | for every kind except invalid input and already exists, the reply does not depend on the error's text, so datastore messages never leak |
| HttpErrors.ValidationTextShown | internal/utils/utils.go:48-59 | for invalid input and already exists, different error texts give different replies |
| HttpErrors.UnauthorizedIsServerError | internal/utils/utils.go:41-62 | an error wrapping `ErrUnauthorized` matches no case and gets the default 500 reply |
| HttpErrors.WriteErrorIntended | internal/middleware/middleware.go:11-12 | the corrected classifier answers 401 exactly for unauthorized errors and agrees with `WriteError` on every other kind |
| Middleware.AdminSecretMiddleware | internal/middleware/middleware.go:13-30 | the next handler is reached iff the header value (empty when absent) equals the secret; otherwise the gate answers with `WriteError` of an error wrapping `ErrUnauthorized` |
| Middleware.ForwardOnlyWithSecret | internal/middleware/middleware.go:17-27 | a request passes iff it carries exactly the secret, or carries no header while the secret is empty |
| Middleware.EmptySecretAdmitsHeaderless | internal/middleware/middleware.go:17-20 | with the secret unset, a request without the header, or with an empty one, is admitted |
| Middleware.RejectionIsServerError | internal/middleware/middleware.go:20-23 | a rejected request gets status 500 with the generic details, not the 401 the documentation promises |
| Middleware.IntendedRejectionIsUnauthorized | internal/middleware/middleware.go:11-12 | under the corrected classifier every rejection answers 401 |
| SubscriptionRepo.OverlapCheck | internal/repository/pg/subscription_repo.go:217-240 | fails with `AlreadyExists` iff some row of the same user and service has end > candidate start and start < candidate end |
| SubscriptionRepo.ConflictCountPositive | internal/repository/pg/subscription_repo.go:218-235 | the `COUNT(*)` is positive iff some row satisfies the query's condition |
| SubscriptionRepo.ConflictShape | internal/repository/pg/subscription_repo.go:222-223 | overlap is symmetric, and periods that only touch (one ends where the other starts) never conflict |
| SubscriptionRepo.OverlapIgnoresDeleted | internal/repository/pg/subscription_repo.go:218-224 | flipping a row's deleted flag does not change the overlap check's answer |
| SubscriptionRepo.CreateRejectsBadDates | internal/repository/pg/subscription_repo.go:31-46 | an unparseable start, an unparseable end, or an end in an earlier month than the start gives `InvalidInput` and leaves the table unchanged |
| SubscriptionRepo.CreateRejectsOverlap | internal/repository/pg/subscription_repo.go:48-53 | with valid dates, a conflicting row gives `AlreadyExists` and leaves the table unchanged |
| SubscriptionRepo.CreateAppends | internal/repository/pg/subscription_repo.go:55-69 | otherwise exactly one record is appended: the request's service, price and user, the requested dates and the next id, which is returned. Existing rows are unchanged |
| SubscriptionRepo.CreateSucceedsIff | internal/repository/pg/subscription_repo.go:31-69 | `Create` succeeds iff the dates are accepted and no row conflicts with the requested period |
| SubscriptionRepo.DefaultEndIsNextMonth | internal/repository/pg/subscription_repo.go:36 | with the end omitted, the end is the start plus one calendar month, strictly after the start |
| SubscriptionRepo.SameMonthEndAccepted | internal/repository/pg/subscription_repo.go:43-45 | an end equal to the start passes the date check, and the stored period is empty |
| SubscriptionRepo.CreateKeepsConsistent | internal/repository/pg/subscription_repo.go:31-69 | on any consistent table, overlapping periods included, `Create` keeps ids distinct and drawn from the sequence, keeps start ≤ end and sets no deleted flag |
| SubscriptionRepo.CreatePreservesInvariants | internal/repository/pg/subscription_repo.go:31-69 | on a table without overlaps, `Create` also keeps same-user, same-service periods disjoint |
| SubscriptionRepo.NextMonthStillFree | internal/repository/pg/subscription_repo.go:50-53 | after a month-long subscription is stored, the following month can still be booked whenever it could be before |
| SubscriptionRepo.OverlappingSecondRefused | internal/repository/pg/subscription_repo.go:50-53 | after a successful create, a second request whose period intersects it is refused with `AlreadyExists` |
| SubscriptionRepo.GetByID | internal/repository/pg/subscription_repo.go:122-140 | `NotFound` iff no row has the id; otherwise the response of a row with that id |
| SubscriptionRepo.GetByUserIDListsUserRows | internal/repository/pg/subscription_repo.go:97-120 | a response is listed iff it is the response of one of the user's rows. None is missed and no other user's row is included; an empty list is not an error |
| SubscriptionRepo.GetByUserIDListsEachRowOnce | internal/repository/pg/subscription_repo.go:109-117 | on a consistent table no two listed responses share an id, so each of the user's rows is listed exactly once |
| SubscriptionRepo.GetAll | internal/repository/pg/subscription_repo.go:72-95 | one response per row, in table order: each is the user-facing mapping of its row, so id, service, price and user are copied and both dates are rendered as "MM-YYYY" |
| SubscriptionRepo.RenewedRecord | internal/repository/pg/subscription_repo.go:154-166 | the new period starts at the old end if that is after the first clock reading `now`, else at the second reading `later`. It lasts as long as the old one and copies service, price and user. When `later` is not before `now`, it starts no earlier than both the old end and `now` |
| SubscriptionRepo.RenewMissing | internal/repository/pg/subscription_repo.go:148-152 | an absent id gives an unclassified error and leaves the table unchanged |
| SubscriptionRepo.RenewAppends | internal/repository/pg/subscription_repo.go:142-184 | a present id gives exactly the old table plus the record renewed from that row under the next id, returns that id, and advances the sequence by one |
| SubscriptionRepo.RenewalFollowsSource | internal/repository/pg/subscription_repo.go:154-165 | when the second clock reading is not before the first, the renewed period never overlaps the period it was derived from |
| SubscriptionRepo.RenewPreservesConsistent | internal/repository/pg/subscription_repo.go:160-179 | renewal keeps ids distinct and keeps start ≤ end |
| SubscriptionRepo.RenewCanOverlap | internal/repository/pg/subscription_repo.go:142-184 | renewal runs no overlap check: extending January while February is booked leaves two overlapping periods |
| SubscriptionRepo.ExtendBeforeExpiry | internal/repository/pg/subscription_repo.go:155-165 | a subscription ending 2025-03-01, renewed on 2025-02-15, is extended from 2025-03-01 with no gap and the same duration, whatever the second clock reading |
| SubscriptionRepo.GetCost | internal/repository/pg/subscription_repo.go:186-203 | succeeds iff some row of the user and service lies within [from, to]. The total is then the sum of prices over such rows; otherwise the NULL sum fails |
| SubscriptionRepo.CostAfterCreate | internal/repository/pg/subscription_repo.go:187-191 | a successful create raises every cost query by the new price if the period lies fully in range, and by nothing otherwise, even for a partial overlap |
| SubscriptionRepo.RemoveId | internal/repository/pg/subscription_repo.go:206 | the rows left are exactly the rows with a different id |
| SubscriptionRepo.Delete | internal/repository/pg/subscription_repo.go:205-215 | always succeeds; afterwards the table holds exactly the old rows with a different id, and the id sequence is unchanged |
| SubscriptionRepo.DeleteAbsentIsNoOp | internal/repository/pg/subscription_repo.go:205-215 | deleting an absent id changes nothing |
| SubscriptionRepo.GetAfterDelete | internal/repository/pg/subscription_repo.go:205-215 | after a delete the id reads `NotFound`, and every other id reads as before |
| SubscriptionRepo.DeleteKeepsConsistent | internal/repository/pg/subscription_repo.go:205-215 | on any consistent table, overlapping periods included, delete keeps ids distinct and drawn from the sequence and keeps start ≤ end |
| SubscriptionRepo.DeletePreservesInvariants | internal/repository/pg/subscription_repo.go:206 | on a table without overlaps, delete also keeps same-user, same-service periods disjoint |
| SubscriptionRepo.DeletedIdLeavesListing | internal/repository/pg/subscription_repo.go:206 | the delete is physical: the admin listing no longer shows the id |
| SubscriptionRepo.ReplayConsistent | internal/repository/pg/subscription_repo.go:31-215 | every table built from the empty relation by any sequence of creates, renewals and deletes is consistent, even once renewal has made periods overlap |
| Service.CreateFailureStatus | internal/utils/utils.go:48-59 | `WriteError` classifies a refused create as 400 iff its dates were bad and as 409 iff they were fine (so an overlap), with the error text as details |
| Service.GetByIDMissingIs404 | internal/repository/pg/subscription_repo.go:129-133 | `WriteError` classifies the lookup error for an absent id as 404 |
| Service.RenewMissingIs500 | internal/repository/pg/subscription_repo.go:149-152 | `WriteError` classifies the renewal error for an absent id as 500 with the generic body |
| Service.GetCostReply | internal/repository/pg/subscription_repo.go:197-202 | `WriteError` classifies a cost query that matches no row as 500; otherwise the total is the sum over contained periods |

## Left out

- SQL text, query building, pgx scanning and the connection pool become the abstract table. The failure paths that only these can take are not modelled. Examples are "error creating query", a lost connection, and a scan error other than the NULL sum. Each would be an unclassified error and a 500.
- Concurrency: each operation is one atomic transition. The check-then-insert races in `Create` and `RenewOrExtend` are not modelled.
- Time zones, monotonic clock readings and sub-second precision: all instants are UTC seconds, and the two `time.Now()` readings of a renewal are the parameters `now` and `later`. The column type the database stores dates in is not part of this model, so instants are stored verbatim.
- SubscriptionRepo.RenewedRecord: Go's `Time.Sub` saturates at about 292 years, and the model does not. A period longer than that (for example "01-0001" to "01-9999") would renew to a shorter one in Go.
- Integer widths: ids are unbounded naturals rather than `uint64`. Prices and their sum are unbounded rather than Go `int`, so overflow of a large sum is not modelled.
- SubscriptionRepo.GetByUserID and SubscriptionRepo.GetAll: SQL without `ORDER BY` returns rows in no promised order. The model returns them in table order.
- SubscriptionRepo.GetAll: the repository interface declares admin responses, but the implementation builds user responses. The model follows the implementation, so the deleted flag is not listed.
- SubscriptionRepo.RenewalFollowsSource: assumes the second clock reading is not earlier than the first. If the wall clock is stepped back between the two `time.Now()` calls, a lapsed subscription can restart before its old end. `RenewedRecord` states that case without the assumption.
- Service: the handlers that cmd/main/main.go wires to the repository are not part of this model. internal/handlers/handlers.go, the only handlers file with bodies, takes the pool rather than the repository and answers its own fixed 500 bodies. `Service` states only how `WriteError` classifies each repository error. It assumes a handler that passes that error to `WriteError`.
- Soft delete: the repository never reads or writes the deleted flag, and every stored row has it false.
- MonthYear.ParseMonthYear: the text of `time.Parse`'s errors is replaced by a fixed placeholder. Only the failure and the absence of a sentinel are modelled. Go's text quotes the input and, depending on the failure, names the layout or a reason such as "month out of range" or "extra text". `Create` replaces that text with its own message anyway.
- HTTP handlers, routing, JSON decoding and encoding, Swagger and environment loading. Also the fallback in `WriteError` for when the error body itself fails to encode, which is an I/O path.
- Middleware.AdminSecretMiddleware: the request's headers are reduced to the first value of `secret-key`, or its absence. Header-name canonicalisation is not modelled.

## Findings

| source | as written | input that shows it | evidently intended | confidence | as-written member | corrected member |
|---|---|---|---|---|---|---|
| internal/middleware/middleware.go:11-23 | the gate wraps `ErrUnauthorized`, and `WriteError` has no case for that kind, so it answers 500 with "Internal server error" | any request to the admin route whose `secret-key` header differs from the secret | 401 Unauthorized, as the doc comment says | high; not executed | Middleware.RejectionIsServerError | HttpErrors.WriteErrorIntended |

The corrected classifier differs from `WriteError` only for the unauthorized kind. So every
repository lemma in `Service` holds unchanged under it, and
`Middleware.IntendedRejectionIsUnauthorized` proves that the gate answers 401 under it.

=== FILE: calendar.dfy ===
/**
 The part of Go's `time` package the service relies on, over instants that are
 integers: seconds since 0000-01-01T00:00:00Z in the proleptic Gregorian
 calendar (the calendar Go uses), all in UTC.

 A calendar month is a (year, month) pair. `MonthStart` maps a month to its first
 instant and is strictly increasing; `MonthOf` maps any instant back to the month
 containing it; `AddOneMonth` is `t.AddDate(0, 1, 0)`.
 */
module Calendar {

  const SecondsPerDay: int := 86400

  datatype Month = Month(year: int, month: int)

  /** A month number Go's `time.Date` would not have to normalise. */
  predicate Valid(m: Month)
  {
    1 <= m.month <= 12
  }

  predicate IsLeap(y: int)
  {
    y % 4 == 0 && (y % 100 != 0 || y % 400 == 0)
  }

  function DaysIn(m: Month): (d: int)
    requires Valid(m)
    ensures 28 <= d <= 31
  {
    if m.month == 2 then (if IsLeap(m.year) then 29 else 28)
    else if m.month in {4, 6, 9, 11} then 30
    else 31
  }

  /** Days from 0000-01-01 to the first day of year `y`; negative before year 0. */
  function DaysBeforeYear(y: int): int
  {
    365 * y + (y + 3) / 4 - (y + 99) / 100 + (y + 399) / 400
  }

  /** Days from the first of January to the first day of `m` in the same year. */
  function DaysBeforeMonth(m: Month): int
    requires Valid(m)
  {
    var common := [0, 31, 59, 90, 120, 151, 181, 212, 243, 273, 304, 334][m.month - 1];
    if m.month > 2 && IsLeap(m.year) then common + 1 else common
  }

  /** The first instant (day 1, 00:00:00) of month `m`. */
  function MonthStart(m: Month): int
    requires Valid(m)
  {
    (DaysBeforeYear(m.year) + DaysBeforeMonth(m)) * SecondsPerDay
  }

  /** The month after `m`: December rolls over into January of the next year. */
  function Next(m: Month): (n: Month)
    requires Valid(m)
    ensures Valid(n)
    ensures Index(n) == Index(m) + 1
  {
    if m.month == 12 then Month(m.year + 1, 1) else Month(m.year, m.month + 1)
  }

  /** The month before `m`. */
  function Prev(m: Month): (p: Month)
    requires Valid(m)
    ensures Valid(p) && Next(p) == m
  {
    if m.month == 1 then Month(m.year - 1, 12) else Month(m.year, m.month - 1)
  }

  /** Months counted from January of year 0: the order months come in. */
  function Index(m: Month): int
  {
    12 * m.year + m.month - 1
  }

  lemma {:induction false} YearLength(y: int)
    ensures DaysBeforeYear(y + 1) - DaysBeforeYear(y) == if IsLeap(y) then 366 else 365
  {
    assert (y + 4) / 4 - (y + 3) / 4 == if y % 4 == 0 then 1 else 0;
    assert (y + 100) / 100 - (y + 99) / 100 == if y % 100 == 0 then 1 else 0;
    assert (y + 400) / 400 - (y + 399) / 400 == if y % 400 == 0 then 1 else 0;
    if y % 400 == 0 {
      assert y % 100 == 0 && y % 4 == 0;
    } else if y % 100 == 0 {
      assert y % 4 == 0;
    }
  }

  /** Consecutive month starts lie exactly one month length apart. */
  lemma {:induction false} NextStart(m: Month)
    requires Valid(m)
    ensures MonthStart(Next(m)) == MonthStart(m) + DaysIn(m) * SecondsPerDay
  {
    if m.month == 12 {
      YearLength(m.year);
    }
  }

  /** Months later in the calendar start later: `MonthStart` is strictly increasing. */
  lemma {:induction false} StartMonotone(a: Month, b: Month)
    requires Valid(a) && Valid(b)
    requires Index(a) < Index(b)
    ensures MonthStart(Next(a)) <= MonthStart(b)
    ensures MonthStart(a) < MonthStart(b)
    decreases Index(b) - Index(a)
  {
    var n := Next(a);
    NextStart(a);
    if Index(n) != Index(b) {
      StartMonotone(n, b);
    } else {
      IndexInjective(n, b);
    }
  }

  lemma StartOrdered(a: Month, b: Month)
    requires Valid(a) && Valid(b) && Index(a) <= Index(b)
    ensures MonthStart(a) <= MonthStart(b)
  {
    if Index(a) < Index(b) {
      StartMonotone(a, b);
    } else {
      IndexInjective(a, b);
    }
  }

  /** Distinct months start at distinct instants. */
  lemma StartInjective(a: Month, b: Month)
    requires Valid(a) && Valid(b)
    requires MonthStart(a) == MonthStart(b)
    ensures a == b
  {
    if Index(a) < Index(b) {
      StartMonotone(a, b);
    } else if Index(b) < Index(a) {
      StartMonotone(b, a);
    } else {
      IndexInjective(a, b);
    }
  }

  lemma IndexInjective(a: Month, b: Month)
    requires Valid(a) && Valid(b) && Index(a) == Index(b)
    ensures a == b
  {
  }

  /** Searches forward from `m` for the month containing `t`. */
  function FindUp(m: Month, t: int): (r: Month)
    requires Valid(m) && MonthStart(m) <= t
    ensures Valid(r) && MonthStart(r) <= t < MonthStart(Next(r))
    ensures Index(m) <= Index(r)
    decreases t - MonthStart(m)
  {
    NextStart(m);
    if t < MonthStart(Next(m)) then m else FindUp(Next(m), t)
  }

  /** Searches backward from `m` for the month containing `t`. */
  function FindDown(m: Month, t: int): (r: Month)
    requires Valid(m) && t < MonthStart(Next(m))
    ensures Valid(r) && MonthStart(r) <= t < MonthStart(Next(r))
    ensures Index(r) <= Index(m)
    decreases MonthStart(Next(m)) - t
  {
    NextStart(Prev(m));
    if MonthStart(m) <= t then m else FindDown(Prev(m), t)
  }

  /** January of year 0, where instant 0 lies. */
  const Epoch: Month := Month(0, 1)

  /** The calendar month containing instant `t`. */
  function MonthOf(t: int): (m: Month)
    ensures Valid(m) && MonthStart(m) <= t < MonthStart(Next(m))
  {
    if MonthStart(Epoch) <= t then FindUp(Epoch, t)
    else
      assert Next(Month(-1, 12)) == Epoch;
      FindDown(Month(-1, 12), t)
  }

  /** A month containing `t` is the month `MonthOf` finds: the months partition the instants. */
  lemma MonthOfUnique(m: Month, t: int)
    requires Valid(m) && MonthStart(m) <= t < MonthStart(Next(m))
    ensures MonthOf(t) == m
  {
    var r := MonthOf(t);
    assert Valid(r) && MonthStart(r) <= t < MonthStart(Next(r));
    if Index(r) < Index(m) {
      StartMonotone(r, m);
      assert false;
    } else if Index(m) < Index(r) {
      StartMonotone(m, r);
      assert false;
    }
    IndexInjective(r, m);
  }

  /** `t.AddDate(0, 1, 0)`: the same day and time of day one month later, normalised
      the way `time.Date` does (an overflowing day spills into the following month). */
  function AddOneMonth(t: int): (r: int)
    ensures r - t == DaysIn(MonthOf(t)) * SecondsPerDay
  {
    var m := MonthOf(t);
    NextStart(m);
    MonthStart(Next(m)) + (t - MonthStart(m))
  }

  /** On a month start, adding one month gives the start of the next month. */
  lemma AddOneMonthOnMonthStart(m: Month)
    requires Valid(m)
    ensures AddOneMonth(MonthStart(m)) == MonthStart(Next(m))
    ensures MonthStart(m) < AddOneMonth(MonthStart(m))
  {
    NextStart(m);
    MonthOfUnique(m, MonthStart(m));
  }
}

=== FILE: errors.dfy ===
/**
 The application's error values and the result types that carry them.

 Each sentinel error of the application becomes a `Kind`; an error that wraps
 none of them (a datastore failure, a parse error that nobody re-wrapped) has
 kind `Unclassified`. Go's `errors.Is(err, sentinel)` is then a test of the kind.
 */
module Errors {

  datatype Kind =
    | NotFound
    | InvalidInput
    | AlreadyExists
    | DecodingJSON
    | EncodingJSON
    | Unauthorized
    | Unclassified

  /** An error value: the sentinel it wraps (if any) and the text `err.Error()` returns. */
  datatype Error = Error(kind: Kind, text: string)

  datatype Option<T> = None | Some(value: T)

  datatype Result<T> = Success(value: T) | Failure(error: Error)

  /** The result of an operation that returns only an error (`nil` on success). */
  datatype Outcome = Pass | Fail(error: Error)

  /** The text of each sentinel error. */
  function SentinelText(k: Kind): string
  {
    match k
    case NotFound => "subscription not found"
    case InvalidInput => "invalid input"
    case AlreadyExists => "subscription already exists"
    case DecodingJSON => "error decoding json"
    case EncodingJSON => "error encoding json"
    case Unauthorized => "unauthorized"
    case Unclassified => ""
  }

  /** `fmt.Errorf("%w: note", sentinel)`: wraps the sentinel, prefixing its text. */
  function Wrap(k: Kind, note: string): (e: Error)
    ensures e.kind == k
  {
    Error(k, SentinelText(k) + ": " + note)
  }
}

=== FILE: middleware.dfy ===
/**
 `AdminSecretMiddleware`: the shared-secret gate in front of the admin route.
 A request passes on to the next handler exactly when its `secret-key` header
 equals the configured secret; otherwise the gate writes an error reply and the
 next handler is never invoked.
 */
module Middleware {
  import opened Errors
  import opened HttpErrors

  /** What the gate does with a request: forward it, or answer it itself. */
  datatype GateOutcome = Forward | Reject(error: Error, reply: Reply)

  /** `r.Header.Get("secret-key")`: the header's first value, or "" when it is absent. */
  function HeaderValue(header: Option<string>): string
  {
    match header
    case Some(v) => v
    case None => ""
  }

  const RejectionError: Error := Wrap(Unauthorized, "secret-key header is missing or invalid")

  /** The gate, for a configured `secret` and the request's `secret-key` header. */
  function AdminSecretMiddleware(secret: string, header: Option<string>): (o: GateOutcome)
    ensures o.Forward? <==> HeaderValue(header) == secret
    ensures o.Reject? ==> o.error.kind == Unauthorized && o.reply == WriteError(o.error)
  {
    if HeaderValue(header) != secret then Reject(RejectionError, WriteError(RejectionError))
    else Forward
  }

  /** A request reaches the handler only with the exact secret, or with no header at all
      when the configured secret is empty. */
  lemma ForwardOnlyWithSecret(secret: string, header: Option<string>)
    ensures AdminSecretMiddleware(secret, header).Forward? <==>
      (header == Some(secret) || (header.None? && secret == ""))
  {
  }

  /** With the secret unset (empty), every request that omits the header is admitted. */
  lemma EmptySecretAdmitsHeaderless()
    ensures AdminSecretMiddleware("", None).Forward?
    ensures AdminSecretMiddleware("", Some("")).Forward?
  {
  }

  /** The reply a rejected request gets is 500 with the generic body, not the 401 the
      gate's documentation promises: the classifier has no case for `ErrUnauthorized`. */
  lemma RejectionIsServerError(secret: string, header: Option<string>)
    requires HeaderValue(header) != secret
    ensures AdminSecretMiddleware(secret, header).reply.status == StatusInternalServerError
    ensures AdminSecretMiddleware(secret, header).reply.status != StatusUnauthorized
    ensures AdminSecretMiddleware(secret, header).reply.details == InternalDetails
  {
  }

  /** With the classifier that has an `ErrUnauthorized` case, every rejection answers 401. */
  lemma IntendedRejectionIsUnauthorized(secret: string, header: Option<string>)
    requires HeaderValue(header) != secret
    ensures WriteErrorIntended(AdminSecretMiddleware(secret, header).error).status == StatusUnauthorized
  {
  }
}

=== FILE: models.dfy ===
/**
 The subscription record and the request and response shapes around it, with
 the conversions between them (`models.go`).
 */
module Models {
  import opened Errors
  import opened Calendar
  import opened MonthYear

  /** A 128-bit UUID, as the integer its sixteen bytes spell. */
  newtype Uuid = x: int | 0 <= x < 0x1_0000_0000_0000_0000_0000_0000_0000_0000

  /** A create request as decoded from JSON; an omitted end date is the empty string. */
  datatype SubscriptionRequest = SubscriptionRequest(
    serviceName: string,
    price: int,
    userId: Uuid,
    startDate: string,
    endDate: string)

  /** A row of the subscriptions relation; `start` and `end` are instants. */
  datatype Subscription = Subscription(
    id: nat,
    serviceName: string,
    price: int,
    userId: Uuid,
    start: int,
    end: int,
    deleted: bool)

  datatype SubscriptionResponse = SubscriptionResponse(
    id: nat,
    serviceName: string,
    price: int,
    userId: Uuid,
    startDate: string,
    endDate: string)

  datatype AdminSubscriptionResponse = AdminSubscriptionResponse(
    id: nat,
    serviceName: string,
    price: int,
    userId: Uuid,
    startDate: string,
    endDate: string,
    deleted: bool)

  /** True when the month containing `t` has a year of four digits, the years "MM-YYYY" can name. */
  predicate FourDigitYear(t: int)
  {
    0 <= MonthOf(t).year <= 9999
  }

  /** `NewSubscriptionResponse`: the record's fields with both dates rendered as "MM-YYYY". */
  function NewSubscriptionResponse(sub: Subscription): SubscriptionResponse
  {
    SubscriptionResponse(
      sub.id, sub.serviceName, sub.price, sub.userId,
      FormatMonthYear(sub.start), FormatMonthYear(sub.end))
  }

  /** The response copies the identifying fields unchanged, and its date strings parse back
      to the first instant of the month each date falls in. */
  lemma ResponseRendersMonths(sub: Subscription)
    ensures var r := NewSubscriptionResponse(sub);
      && r.id == sub.id && r.serviceName == sub.serviceName
      && r.price == sub.price && r.userId == sub.userId
    ensures FourDigitYear(sub.start) ==>
      ParseMonthYear(NewSubscriptionResponse(sub).startDate) == Success(MonthStart(MonthOf(sub.start)))
    ensures FourDigitYear(sub.end) ==>
      ParseMonthYear(NewSubscriptionResponse(sub).endDate) == Success(MonthStart(MonthOf(sub.end)))
  {
    RoundTripWhenFourDigits(sub.start);
    RoundTripWhenFourDigits(sub.end);
  }

  /** `NewAdminSubscriptionResponse`: the user-facing response plus the deleted flag. */
  function NewAdminSubscriptionResponse(sub: Subscription): (r: AdminSubscriptionResponse)
    ensures var u := NewSubscriptionResponse(sub);
      && r.id == u.id && r.serviceName == u.serviceName && r.price == u.price
      && r.userId == u.userId && r.startDate == u.startDate && r.endDate == u.endDate
    ensures r.deleted == sub.deleted
  {
    AdminSubscriptionResponse(
      sub.id, sub.serviceName, sub.price, sub.userId,
      FormatMonthYear(sub.start), FormatMonthYear(sub.end), sub.deleted)
  }

  /** `RequestToSubscription`: a record not yet stored, with the caller's pre-parsed dates. */
  function RequestToSubscription(req: SubscriptionRequest, start: int, end: int): (r: Subscription)
    ensures r.id == 0 && !r.deleted
    ensures r.serviceName == req.serviceName && r.price == req.price && r.userId == req.userId
    ensures r.start == start && r.end == end
  {
    Subscription(0, req.serviceName, req.price, req.userId, start, end, false)
  }

  lemma RoundTripWhenFourDigits(t: int)
    ensures FourDigitYear(t) ==> ParseMonthYear(FormatMonthYear(t)) == Success(MonthStart(MonthOf(t)))
  {
    if FourDigitYear(t) {
      FormatThenParse(t);
    }
  }
}

=== FILE: month_year.dfy ===
/**
 The "MM-YYYY" month-year codec: `ParseMonthYear` (the service's parser, a
 split-on-dash guard in front of `time.Parse` with layout "01-2006") and
 `FormatMonthYear` (`t.Format("01-2006")`, used by the response mappers).

 The parser accepts exactly the strings `WellFormed` describes and yields the
 first instant of the month they name; formatting any instant of a month with a
 four-digit year and parsing the result gives back that month's first instant.
 */
module MonthYear {
  import opened Errors
  import opened Calendar

  predicate IsDigit(c: char)
  {
    '0' <= c <= '9'
  }

  function DigitValue(c: char): (d: nat)
    requires IsDigit(c)
    ensures d < 10
  {
    c as int - '0' as int
  }

  function DigitChar(d: nat): (c: char)
    requires d < 10
    ensures IsDigit(c) && DigitValue(c) == d
  {
    (d + '0' as int) as char
  }

  predicate AllDigits(s: string)
  {
    forall i | 0 <= i < |s| :: IsDigit(s[i])
  }

  /** The value of a string of decimal digits, read left to right as `leadingInt` does. */
  function DecimalValue(s: string): nat
    requires AllDigits(s)
  {
    if |s| == 0 then 0 else 10 * DecimalValue(s[..|s| - 1]) + DigitValue(s[|s| - 1])
  }

  /** How many pieces `strings.Split(s, "-")` returns: one more than the number of dashes. */
  function SplitCount(s: string): (n: nat)
    ensures n >= 1
  {
    if |s| == 0 then 1 else (if s[0] == '-' then 1 else 0) + SplitCount(s[1..])
  }

  // ---------------------------------------------------------------------------
  // Parsing

  /** `time.Parse("01-2006", s)`, keeping only whether it succeeds and the month it names.
      Layout element by element: "01" is a fixed-width two-digit month in 1..12; "-" is a
      literal; "2006" takes four characters, the first a digit, and reads them with `atoi`
      (whose sign handling cannot apply, the first character being a digit); then no text may
      remain. The day defaults to 1, which every month has. */
  function ParseLayout(s: string): (r: Option<Month>)
    ensures r.Some? ==> Valid(r.value)
  {
    if |s| < 2 || !IsDigit(s[0]) || !IsDigit(s[1]) then None
    else
      var month := 10 * DigitValue(s[0]) + DigitValue(s[1]);
      if month < 1 || 12 < month then None
      else if |s| < 3 || s[2] != '-' then None
      else
        var rest := s[3..];
        if |rest| < 4 || !IsDigit(rest[0]) then None
        else if !AllDigits(rest[..4]) then None
        else if |rest| > 4 then None
        else Some(Month(DecimalValue(rest[..4]), month))
  }

  const SplitError: Error := Error(Unclassified, "invalid date format, expected MM-YYYY")

  /** A fixed placeholder for the error `time.Parse` returns. Only the failure and the
      absence of a sentinel are modelled; Go's own text, which quotes the input and names
      the reason, is not. */
  const LayoutError: Error := Error(Unclassified, "parsing time: input does not match layout \"01-2006\"")

  /** `utils.ParseMonthYear`: the split guard, then the layout parse, yielding an instant. */
  function ParseMonthYear(s: string): (r: Result<int>)
    ensures r.Failure? ==> r.error.kind == Unclassified
    ensures SplitCount(s) != 2 ==> r == Failure(SplitError)
  {
    if SplitCount(s) != 2 then Failure(SplitError)
    else
      match ParseLayout(s)
      case None => Failure(LayoutError)
      case Some(m) => Success(MonthStart(m))
  }

  // ---------------------------------------------------------------------------
  // The accepted language

  /** Two digits forming a month 01..12, a dash, four digits, and nothing else. */
  predicate WellFormed(s: string)
  {
    && |s| == 7
    && IsDigit(s[0]) && IsDigit(s[1]) && s[2] == '-'
    && IsDigit(s[3]) && IsDigit(s[4]) && IsDigit(s[5]) && IsDigit(s[6])
    && 1 <= 10 * DigitValue(s[0]) + DigitValue(s[1]) <= 12
  }

  /** The month a well-formed string names. */
  function NamedMonth(s: string): (m: Month)
    requires WellFormed(s)
    ensures Valid(m) && 0 <= m.year <= 9999
  {
    FourDigits(s[3..]);
    Month(1000 * DigitValue(s[3]) + 100 * DigitValue(s[4]) + 10 * DigitValue(s[5]) + DigitValue(s[6]),
          10 * DigitValue(s[0]) + DigitValue(s[1]))
  }

  lemma FourDigits(p: string)
    requires |p| == 4 && AllDigits(p)
    ensures DecimalValue(p) == 1000 * DigitValue(p[0]) + 100 * DigitValue(p[1]) + 10 * DigitValue(p[2]) + DigitValue(p[3])
  {
    var p3, p2, p1 := p[..3], p[..2], p[..1];
    assert p3[..2] == p2 && p2[..1] == p1 && p1[..0] == [];
    assert DecimalValue(p1) == DigitValue(p[0]);
    assert DecimalValue(p2) == 10 * DigitValue(p[0]) + DigitValue(p[1]);
    assert DecimalValue(p3) == 100 * DigitValue(p[0]) + 10 * DigitValue(p[1]) + DigitValue(p[2]);
  }

  lemma {:induction false} NoDashSplitsOnce(s: string)
    requires forall i | 0 <= i < |s| :: s[i] != '-'
    ensures SplitCount(s) == 1
  {
    if |s| > 0 {
      NoDashSplitsOnce(s[1..]);
    }
  }

  lemma WellFormedSplitsInTwo(s: string)
    requires WellFormed(s)
    ensures SplitCount(s) == 2
  {
    NoDashSplitsOnce(s[3..]);
    assert s[1..][1..] == s[2..];
    assert s[2..][1..] == s[3..];
    assert SplitCount(s[2..]) == 1 + SplitCount(s[3..]);
    assert SplitCount(s[1..]) == SplitCount(s[2..]);
  }

  /** The parser accepts exactly the well-formed strings, and yields the first instant
      (day 1, 00:00) of the month they name. */
  lemma ParseAcceptsExactly(s: string)
    ensures ParseMonthYear(s).Success? <==> WellFormed(s)
    ensures WellFormed(s) ==> ParseMonthYear(s) == Success(MonthStart(NamedMonth(s)))
  {
    if WellFormed(s) {
      WellFormedSplitsInTwo(s);
      FourDigits(s[3..][..4]);
      assert s[3..][..4] == s[3..];
    } else if SplitCount(s) == 2 && ParseLayout(s).Some? {
      assert |s| == 7 && s[3..][0] == s[3];
      assert forall i | 0 <= i < 4 :: s[3..][..4][i] == s[3 + i];
      assert false;
    }
  }

  /** Distinct accepted strings parse to distinct instants. */
  lemma ParseInjective(s1: string, s2: string)
    requires ParseMonthYear(s1).Success? && ParseMonthYear(s2).Success?
    requires ParseMonthYear(s1).value == ParseMonthYear(s2).value
    ensures s1 == s2
  {
    ParseAcceptsExactly(s1);
    ParseAcceptsExactly(s2);
    StartInjective(NamedMonth(s1), NamedMonth(s2));
    FormatNamedMonth(s1);
    FormatNamedMonth(s2);
  }

  /** Strings that are not "MM-YYYY" are refused, whichever check catches them. */
  lemma RejectsMalformed()
    ensures ParseMonthYear("").Failure?
    ensures ParseMonthYear("012025").Failure?
    ensures ParseMonthYear("01-20-25").Failure?
    ensures ParseMonthYear("13-2025").Failure?
    ensures ParseMonthYear("00-2025").Failure?
    ensures ParseMonthYear("1-2025").Failure?
    ensures ParseMonthYear("01-25").Failure?
    ensures ParseMonthYear("01-2025x").Failure?
  {
    ParseAcceptsExactly("");
    ParseAcceptsExactly("012025");
    ParseAcceptsExactly("01-20-25");
    ParseAcceptsExactly("13-2025");
    ParseAcceptsExactly("00-2025");
    ParseAcceptsExactly("1-2025");
    ParseAcceptsExactly("01-25");
    ParseAcceptsExactly("01-2025x");
  }

  /** "01-2025" is January 2025. */
  lemma ParsesJanuary2025()
    ensures ParseMonthYear("01-2025") == Success(MonthStart(Month(2025, 1)))
  {
    ParseAcceptsExactly("01-2025");
  }

  // ---------------------------------------------------------------------------
  // Formatting

  /** Go's `appendInt(b, x, width)`: a '-' for negative values, then the magnitude in
      decimal, zero-padded on the left to `width` digits. */
  function AppendInt(x: int, width: nat): string
  {
    var u: nat := if x < 0 then -x else x;
    var sign := if x < 0 then "-" else "";
    if width == 2 && u < 100 then
      sign + [DigitChar(u / 10), DigitChar(u % 10)]
    else if width == 4 && u < 10000 then
      sign + [DigitChar(u / 1000), DigitChar(u / 100 % 10), DigitChar(u / 10 % 10), DigitChar(u % 10)]
    else
      sign + ZeroPad(Decimal(u), width)
  }

  function Decimal(u: nat): (s: string)
    ensures |s| >= 1
  {
    if u < 10 then [DigitChar(u)] else Decimal(u / 10) + [DigitChar(u % 10)]
  }

  function ZeroPad(s: string, width: nat): (r: string)
    ensures |r| >= |s| && |r| >= width
    decreases width - |s|
  {
    if |s| >= width then s else ZeroPad("0" + s, width)
  }

  /** The text "01-2006" renders for any instant of month `m`. */
  function MonthText(m: Month): string
  {
    AppendInt(m.month, 2) + "-" + AppendInt(m.year, 4)
  }

  /** `t.Format("01-2006")`: the month of `t` as two digits, a dash, and its year in at
      least four digits; day and time of day are dropped. */
  function FormatMonthYear(t: int): string
  {
    MonthText(MonthOf(t))
  }

  lemma TwoDigits(x: nat)
    requires x < 100
    ensures x / 10 < 10 && 10 * (x / 10) + x % 10 == x
  {
  }

  lemma SplitFourDigits(y: nat)
    requires y < 10000
    ensures y / 1000 < 10
    ensures 1000 * (y / 1000) + 100 * (y / 100 % 10) + 10 * (y / 10 % 10) + y % 10 == y
  {
    assert y / 10 == 10 * (y / 100) + y / 10 % 10;
    assert y / 100 == 10 * (y / 1000) + y / 100 % 10;
  }

  lemma JoinFourDigits(a: nat, b: nat, c: nat, d: nat)
    requires a < 10 && b < 10 && c < 10 && d < 10
    ensures var y := 1000 * a + 100 * b + 10 * c + d;
      y / 1000 == a && y / 100 % 10 == b && y / 10 % 10 == c && y % 10 == d
  {
    var y := 1000 * a + 100 * b + 10 * c + d;
    assert y / 10 == 100 * a + 10 * b + c;
    assert y / 100 == 10 * a + b;
  }

  /** A month with a year in 0..9999 renders as a well-formed string naming that month. */
  lemma MonthTextWellFormed(m: Month)
    requires Valid(m) && 0 <= m.year <= 9999
    ensures WellFormed(MonthText(m))
    ensures NamedMonth(MonthText(m)) == m
  {
    var s := MonthText(m);
    TwoDigits(m.month);
    SplitFourDigits(m.year);
    assert s[0] == DigitChar(m.month / 10) && s[1] == DigitChar(m.month % 10) && s[2] == '-';
    assert s[3] == DigitChar(m.year / 1000) && s[4] == DigitChar(m.year / 100 % 10);
    assert s[5] == DigitChar(m.year / 10 % 10) && s[6] == DigitChar(m.year % 10);
  }

  /** A well-formed string is the rendering of the month it names. */
  lemma NamedMonthText(s: string)
    requires WellFormed(s)
    ensures MonthText(NamedMonth(s)) == s
  {
    var m := NamedMonth(s);
    var f := MonthText(m);
    JoinFourDigits(DigitValue(s[3]), DigitValue(s[4]), DigitValue(s[5]), DigitValue(s[6]));
    assert (10 * DigitValue(s[0]) + DigitValue(s[1])) / 10 == DigitValue(s[0]);
    assert f[0] == s[0] && f[1] == s[1];
    assert f[3] == s[3] && f[4] == s[4] && f[5] == s[5] && f[6] == s[6];
  }

  /** Round trip: parsing the rendering of an instant whose year has four digits yields the
      first instant of that instant's month. */
  lemma FormatThenParse(t: int)
    requires 0 <= MonthOf(t).year <= 9999
    ensures ParseMonthYear(FormatMonthYear(t)) == Success(MonthStart(MonthOf(t)))
  {
    MonthTextWellFormed(MonthOf(t));
    ParseAcceptsExactly(FormatMonthYear(t));
  }

  /** Round trip the other way: an accepted string is the rendering of what it parses to. */
  lemma FormatNamedMonth(s: string)
    requires WellFormed(s)
    ensures FormatMonthYear(MonthStart(NamedMonth(s))) == s
  {
    var m := NamedMonth(s);
    NextStart(m);
    MonthOfUnique(m, MonthStart(m));
    NamedMonthText(s);
  }

  /** Every instant of a month renders as that month's first instant does. */
  lemma SameMonthSameText(m: Month, t: int)
    requires Valid(m) && MonthStart(m) <= t < MonthStart(Next(m))
    ensures FormatMonthYear(t) == FormatMonthYear(MonthStart(m))
  {
    NextStart(m);
    MonthOfUnique(m, t);
    MonthOfUnique(m, MonthStart(m));
  }

  /** Years past 9999 render with five or more digits, which the parser refuses: the round
      trip holds only for four-digit years. */
  lemma LongYearsDoNotRoundTrip(t: int)
    requires MonthOf(t).year > 9999
    ensures ParseMonthYear(FormatMonthYear(t)).Failure?
  {
    var m := MonthOf(t);
    assert |AppendInt(m.year, 4)| >= 5 by {
      assert |Decimal(m.year)| >= 5 by { DecimalLength(m.year); }
    }
    ParseAcceptsExactly(FormatMonthYear(t));
  }

  lemma {:induction false} DecimalLength(u: nat)
    ensures u >= 10000 ==> |Decimal(u)| >= 5
    ensures u >= 10 ==> |Decimal(u)| >= 2
    ensures u >= 100 ==> |Decimal(u)| >= 3
    ensures u >= 1000 ==> |Decimal(u)| >= 4
  {
    if u >= 10 {
      DecimalLength(u / 10);
    }
  }
}

=== FILE: service.dfy ===
/**
 How `WriteError` classifies each failure the repository operations can produce.
 The handlers that would carry these errors to the client are not part of this
 model; the statuses below are what a handler passing the repository's error to
 `WriteError` would answer.
 */
module Service {
  import opened Errors
  import opened HttpErrors
  import opened Models
  import opened SubscriptionRepo

  /** `WriteError` classifies a refused create as 400 for bad dates and 409 for an overlap,
      with the error text in the details. */
  lemma CreateFailureStatus(t: Table, req: SubscriptionRequest)
    requires Create(t, req).result.Failure?
    ensures var r := WriteError(Create(t, req).result.error);
      && (r.status == StatusBadRequest <==> !DatesAccepted(req))
      && (r.status == StatusConflict <==> DatesAccepted(req))
      && r.details == Create(t, req).result.error.text
  {
    if !DatesAccepted(req) {
      CreateRejectsBadDates(t, req);
    } else if exists i | 0 <= i < |t.rows| :: Conflicts(t.rows[i], RequestedRecord(req)) {
      CreateRejectsOverlap(t, req);
    } else {
      CreateAppends(t, req);
    }
  }

  /** `WriteError` classifies the lookup error for an absent id as 404. */
  lemma GetByIDMissingIs404(t: Table, id: nat)
    requires forall i | 0 <= i < |t.rows| :: t.rows[i].id != id
    ensures WriteError(GetByID(t, id).error).status == StatusNotFound
  {
  }

  /** `WriteError` classifies the renewal lookup error for an absent id as 500 with the
      generic body, not 404: the error wraps no sentinel. */
  lemma RenewMissingIs500(t: Table, id: nat, now: int, later: int)
    requires forall i | 0 <= i < |t.rows| :: t.rows[i].id != id
    ensures WriteError(RenewOrExtend(t, id, now, later).result.error) == Reply(StatusInternalServerError, DefaultMessage, InternalDetails)
  {
    RenewMissing(t, id, now, later);
  }

  /** The status `WriteError` gives a cost query's outcome (200 on success): a query that
      matches no row is classified as 500. */
  method GetCostReply(t: Table, q: CostQuery) returns (status: int, total: int)
    ensures status == StatusInternalServerError <==> forall i | 0 <= i < |t.rows| :: !Counted(t.rows[i], q)
    ensures status != StatusInternalServerError ==> total == CostOf(t.rows, q)
  {
    var r := GetCost(t, q);
    match r {
      case Success(v) =>
        status, total := 200, v;
      case Failure(e) =>
        status, total := WriteError(e).status, 0;
    }
  }
}

=== FILE: subscription_repo.dfy ===
/**
 `SubscriptionRepo` over an abstract subscriptions relation: the rows in
 insertion order plus the next value of the id sequence. Each SQL statement
 becomes one atomic transition of that table. `RenewOrExtend` reads the clock
 twice: the reading the old end is compared with is the parameter `now`, and the
 one a lapsed subscription restarts at is the parameter `later`.
 */
module SubscriptionRepo {
  import opened Errors
  import opened Calendar
  import opened MonthYear
  import opened Models

  datatype Table = Table(rows: seq<Subscription>, nextId: nat)

  /** A fresh relation; its id sequence starts at 1. */
  const Empty: Table := Table([], 1)

  /** An operation's result together with the table it leaves behind. */
  datatype Step<T> = Step(result: Result<T>, table: Table)

  /** What every table built from `Empty` by these operations satisfies (`ReplayConsistent`):
      ids are drawn from the sequence and distinct, no period ends before it starts, nothing
      is soft-deleted. */
  predicate Consistent(t: Table)
  {
    && (forall i | 0 <= i < |t.rows| ::
          0 < t.rows[i].id < t.nextId && t.rows[i].start <= t.rows[i].end && !t.rows[i].deleted)
    && (forall i, j | 0 <= i < j < |t.rows| :: t.rows[i].id != t.rows[j].id)
  }

  // ---------------------------------------------------------------------------
  // Overlap

  /** The overlap query's condition: same user, same service, and the half-open periods
      [start, end) intersect. The deleted flag is not consulted. */
  predicate Conflicts(existing: Subscription, cand: Subscription)
  {
    && existing.userId == cand.userId
    && existing.serviceName == cand.serviceName
    && existing.end > cand.start
    && existing.start < cand.end
  }

  /** `SELECT COUNT(*)` of the rows that conflict with `cand`. */
  function ConflictCount(rows: seq<Subscription>, cand: Subscription): nat
  {
    if |rows| == 0 then 0
    else (if Conflicts(rows[0], cand) then 1 else 0) + ConflictCount(rows[1..], cand)
  }

  lemma {:induction false} ConflictCountPositive(rows: seq<Subscription>, cand: Subscription)
    ensures ConflictCount(rows, cand) > 0 <==> exists i | 0 <= i < |rows| :: Conflicts(rows[i], cand)
  {
    if |rows| > 0 {
      ConflictCountPositive(rows[1..], cand);
      if Conflicts(rows[0], cand) {
      } else if ConflictCount(rows, cand) > 0 {
        var i :| 0 <= i < |rows[1..]| && Conflicts(rows[1..][i], cand);
        assert Conflicts(rows[i + 1], cand);
      } else {
        forall i | 0 <= i < |rows| ensures !Conflicts(rows[i], cand) {
          if i > 0 {
            assert rows[i] == rows[1..][i - 1];
          }
        }
      }
    }
  }

  const OverlapError: Error := Wrap(AlreadyExists, "wait till current subscription ends or extend it")

  /** `OverlapCheck`: fails with `AlreadyExists` exactly when some row conflicts. */
  function OverlapCheck(t: Table, cand: Subscription): (r: Outcome)
    ensures r.Fail? <==> exists i | 0 <= i < |t.rows| :: Conflicts(t.rows[i], cand)
    ensures r.Fail? ==> r.error.kind == AlreadyExists
  {
    ConflictCountPositive(t.rows, cand);
    if ConflictCount(t.rows, cand) > 0 then Fail(OverlapError) else Pass
  }

  /** Overlap is symmetric, and periods that only touch (one ends where the other starts)
      never conflict. */
  lemma ConflictShape(a: Subscription, b: Subscription)
    ensures Conflicts(a, b) <==> Conflicts(b, a)
    ensures a.end == b.start ==> !Conflicts(a, b) && !Conflicts(b, a)
  {
  }

  /** The overlap check reads no deleted flag: flipping one leaves its answer unchanged. */
  lemma OverlapIgnoresDeleted(t: Table, i: nat, cand: Subscription)
    requires i < |t.rows|
    ensures OverlapCheck(t.(rows := t.rows[i := t.rows[i].(deleted := !t.rows[i].deleted)]), cand)
         == OverlapCheck(t, cand)
  {
    var t' := t.(rows := t.rows[i := t.rows[i].(deleted := !t.rows[i].deleted)]);
    assert forall j | 0 <= j < |t.rows| :: Conflicts(t'.rows[j], cand) == Conflicts(t.rows[j], cand);
  }

  /** No two rows of the same user and service have overlapping periods. */
  predicate NoOverlaps(t: Table)
  {
    forall i, j | 0 <= i < j < |t.rows| :: !Conflicts(t.rows[i], t.rows[j])
  }

  // ---------------------------------------------------------------------------
  // Inserting

  /** `INSERT ... RETURNING id`: stores `sub` under the sequence's next id. */
  function Insert(t: Table, sub: Subscription): (s: Step<nat>)
    ensures s.result == Success(t.nextId)
    ensures |s.table.rows| == |t.rows| + 1 && s.table.rows[..|t.rows|] == t.rows
    ensures s.table.rows[|t.rows|] == sub.(id := t.nextId)
    ensures s.table.nextId > t.nextId
  {
    Step(Success(t.nextId), Table(t.rows + [sub.(id := t.nextId)], t.nextId + 1))
  }

  // ---------------------------------------------------------------------------
  // Create

  const BadStart: Error := Wrap(InvalidInput, "invalid start date")
  const BadEnd: Error := Wrap(InvalidInput, "invalid end date")
  const EndBeforeStart: Error := Wrap(InvalidInput, "end date must be after start date")

  /** `Create`: parse the start, default the end to one month later, parse an explicit end
      and refuse one before the start, run the overlap check, then insert. */
  function Create(t: Table, req: SubscriptionRequest): Step<nat>
  {
    var start := ParseMonthYear(req.startDate);
    if start.Failure? then Step(Failure(BadStart), t)
    else
      var end :=
        if req.endDate == "" then Success(AddOneMonth(start.value))
        else ParseMonthYear(req.endDate);
      if end.Failure? then Step(Failure(BadEnd), t)
      else if req.endDate != "" && end.value < start.value then Step(Failure(EndBeforeStart), t)
      else
        var sub := RequestToSubscription(req, start.value, end.value);
        match OverlapCheck(t, sub)
        case Fail(e) => Step(Failure(e), t)
        case Pass => Insert(t, sub)
  }

  /** The requests whose dates `Create` accepts, stated on the text: a well-formed start, and
      an end that is omitted or well-formed and not in an earlier month. An end in the same
      month as the start is accepted, because the check is "end before start". */
  predicate DatesAccepted(req: SubscriptionRequest)
  {
    && WellFormed(req.startDate)
    && (req.endDate == "" ||
        (WellFormed(req.endDate) && Index(NamedMonth(req.startDate)) <= Index(NamedMonth(req.endDate))))
  }

  /** The period such a request asks for: its start month, and its end month or the month after. */
  function RequestedPeriod(req: SubscriptionRequest): (p: (Month, Month))
    requires DatesAccepted(req)
    ensures Valid(p.0) && Valid(p.1) && Index(p.0) <= Index(p.1)
  {
    var s := NamedMonth(req.startDate);
    if req.endDate == "" then (s, Next(s)) else (s, NamedMonth(req.endDate))
  }

  /** The record such a request asks to store, before the table assigns it an id. */
  function RequestedRecord(req: SubscriptionRequest): (r: Subscription)
    requires DatesAccepted(req)
    ensures r.start <= r.end
  {
    var (s, e) := RequestedPeriod(req);
    StartOrdered(s, e);
    Subscription(0, req.serviceName, req.price, req.userId, MonthStart(s), MonthStart(e), false)
  }

  /** With the end omitted, the period is one calendar month: it ends where the next month
      starts, strictly after its start. */
  lemma DefaultEndIsNextMonth(req: SubscriptionRequest)
    requires DatesAccepted(req) && req.endDate == ""
    ensures RequestedRecord(req).end == AddOneMonth(RequestedRecord(req).start)
    ensures RequestedRecord(req).end == MonthStart(Next(NamedMonth(req.startDate)))
    ensures RequestedRecord(req).start < RequestedRecord(req).end
  {
    AddOneMonthOnMonthStart(NamedMonth(req.startDate));
  }

  lemma CreateSeesRequestedRecord(req: SubscriptionRequest)
    requires DatesAccepted(req)
    ensures ParseMonthYear(req.startDate) == Success(RequestedRecord(req).start)
    ensures req.endDate == "" ==> AddOneMonth(RequestedRecord(req).start) == RequestedRecord(req).end
    ensures req.endDate != "" ==> ParseMonthYear(req.endDate) == Success(RequestedRecord(req).end)
  {
    ParseAcceptsExactly(req.startDate);
    if req.endDate != "" {
      ParseAcceptsExactly(req.endDate);
    } else {
      DefaultEndIsNextMonth(req);
    }
  }

  /** Bad dates: `Create` answers `InvalidInput` and leaves the table as it was. */
  lemma CreateRejectsBadDates(t: Table, req: SubscriptionRequest)
    requires !DatesAccepted(req)
    ensures Create(t, req).result.Failure?
    ensures Create(t, req).result.error.kind == InvalidInput
    ensures Create(t, req).table == t
  {
    ParseAcceptsExactly(req.startDate);
    ParseAcceptsExactly(req.endDate);
    if WellFormed(req.startDate) && req.endDate != "" && WellFormed(req.endDate) {
      var s, e := NamedMonth(req.startDate), NamedMonth(req.endDate);
      assert Index(e) < Index(s);
      StartMonotone(e, s);
    }
  }

  /** Good dates but a conflicting row: `Create` answers `AlreadyExists`, table unchanged. */
  lemma CreateRejectsOverlap(t: Table, req: SubscriptionRequest)
    requires DatesAccepted(req)
    requires exists i | 0 <= i < |t.rows| :: Conflicts(t.rows[i], RequestedRecord(req))
    ensures Create(t, req) == Step(Failure(OverlapError), t)
  {
    CreateSeesRequestedRecord(req);
  }

  /** Good dates and no conflict: `Create` appends exactly the requested record under the
      next id and returns that id; every existing row stays as it was. */
  lemma CreateAppends(t: Table, req: SubscriptionRequest)
    requires DatesAccepted(req)
    requires forall i | 0 <= i < |t.rows| :: !Conflicts(t.rows[i], RequestedRecord(req))
    ensures Create(t, req) ==
      Step(Success(t.nextId), Table(t.rows + [RequestedRecord(req).(id := t.nextId)], t.nextId + 1))
  {
    CreateSeesRequestedRecord(req);
  }

  /** The relation as created holds no rows, so it is consistent. */
  lemma EmptyConsistent()
    ensures Consistent(Empty) && Empty.nextId > 0
  {
  }

  /** Appending a well-formed row under the next id keeps the table consistent. */
  lemma AppendKeepsConsistent(t: Table, row: Subscription)
    requires Consistent(t)
    requires row.id == t.nextId && 0 < row.id && row.start <= row.end && !row.deleted
    ensures Consistent(Table(t.rows + [row], t.nextId + 1))
  {
    var rows := t.rows + [row];
    assert forall i | 0 <= i < |t.rows| :: rows[i] == t.rows[i];
    assert rows[|t.rows|] == row;
  }

  /** Appending a row that conflicts with none also keeps periods disjoint. */
  lemma AppendPreservesInvariants(t: Table, row: Subscription)
    requires Consistent(t) && NoOverlaps(t)
    requires row.id == t.nextId && 0 < row.id && row.start <= row.end && !row.deleted
    requires forall i | 0 <= i < |t.rows| :: !Conflicts(t.rows[i], row)
    ensures Consistent(Table(t.rows + [row], t.nextId + 1)) && NoOverlaps(Table(t.rows + [row], t.nextId + 1))
  {
    AppendKeepsConsistent(t, row);
    var rows := t.rows + [row];
    assert forall i | 0 <= i < |t.rows| :: rows[i] == t.rows[i];
    assert rows[|t.rows|] == row;
  }

  /** `Create` keeps every consistent table consistent, whether or not it has overlaps. */
  lemma CreateKeepsConsistent(t: Table, req: SubscriptionRequest)
    requires Consistent(t) && t.nextId > 0
    ensures Consistent(Create(t, req).table)
  {
    if !DatesAccepted(req) {
      CreateRejectsBadDates(t, req);
    } else if exists i | 0 <= i < |t.rows| :: Conflicts(t.rows[i], RequestedRecord(req)) {
      CreateRejectsOverlap(t, req);
    } else {
      CreateAppends(t, req);
      AppendKeepsConsistent(t, RequestedRecord(req).(id := t.nextId));
    }
  }

  /** On a table without overlaps, `Create` also keeps same-user, same-service periods disjoint. */
  lemma CreatePreservesInvariants(t: Table, req: SubscriptionRequest)
    requires Consistent(t) && NoOverlaps(t) && t.nextId > 0
    ensures Consistent(Create(t, req).table) && NoOverlaps(Create(t, req).table)
  {
    if !DatesAccepted(req) {
      CreateRejectsBadDates(t, req);
    } else if exists i | 0 <= i < |t.rows| :: Conflicts(t.rows[i], RequestedRecord(req)) {
      CreateRejectsOverlap(t, req);
    } else {
      CreateAppends(t, req);
      var row := RequestedRecord(req).(id := t.nextId);
      assert forall i | 0 <= i < |t.rows| :: !Conflicts(t.rows[i], row) by {
        assert forall i | 0 <= i < |t.rows| :: Conflicts(t.rows[i], row) == Conflicts(t.rows[i], RequestedRecord(req));
      }
      AppendPreservesInvariants(t, row);
    }
  }

  /** `Create` succeeds exactly for accepted dates whose period conflicts with no row. */
  lemma CreateSucceedsIff(t: Table, req: SubscriptionRequest)
    ensures Create(t, req).result.Success? <==>
      DatesAccepted(req) && forall i | 0 <= i < |t.rows| :: !Conflicts(t.rows[i], RequestedRecord(req))
  {
    if !DatesAccepted(req) {
      CreateRejectsBadDates(t, req);
    } else if exists i | 0 <= i < |t.rows| :: Conflicts(t.rows[i], RequestedRecord(req)) {
      CreateRejectsOverlap(t, req);
    } else {
      CreateAppends(t, req);
    }
  }

  /** Back-to-back periods: once a month-long subscription is stored, the following month
      can still be booked for the same user and service whenever it could be before. */
  lemma NextMonthStillFree(t: Table, first: SubscriptionRequest, second: SubscriptionRequest)
    requires first.endDate == "" && DatesAccepted(first) && DatesAccepted(second)
    requires NamedMonth(second.startDate) == Next(NamedMonth(first.startDate))
    requires Create(t, second).result.Success?
    ensures Create(Create(t, first).table, second).result.Success?
  {
    var t1 := Create(t, first).table;
    CreateSucceedsIff(t, second);
    CreateSucceedsIff(t, first);
    CreateSucceedsIff(t1, second);
    if Create(t, first).result.Success? {
      CreateAppends(t, first);
      NextRowTouches(t, first, second);
    }
  }

  lemma NextRowTouches(t: Table, first: SubscriptionRequest, second: SubscriptionRequest)
    requires first.endDate == "" && DatesAccepted(first) && DatesAccepted(second)
    requires NamedMonth(second.startDate) == Next(NamedMonth(first.startDate))
    requires forall i | 0 <= i < |t.rows| :: !Conflicts(t.rows[i], RequestedRecord(second))
    ensures var rows := t.rows + [RequestedRecord(first).(id := t.nextId)];
      forall i | 0 <= i < |rows| :: !Conflicts(rows[i], RequestedRecord(second))
  {
    var rows := t.rows + [RequestedRecord(first).(id := t.nextId)];
    DefaultEndIsNextMonth(first);
    assert forall i | 0 <= i < |t.rows| :: rows[i] == t.rows[i];
  }

  /** Once a subscription is stored, a second request for the same user and service whose
      period intersects it is refused with `AlreadyExists`, and the table stays as it was. */
  lemma OverlappingSecondRefused(t: Table, first: SubscriptionRequest, second: SubscriptionRequest)
    requires DatesAccepted(first) && DatesAccepted(second)
    requires Create(t, first).result.Success?
    requires Conflicts(RequestedRecord(first), RequestedRecord(second))
    ensures var t1 := Create(t, first).table;
      Create(t1, second) == Step(Failure(OverlapError), t1)
  {
    if exists i | 0 <= i < |t.rows| :: Conflicts(t.rows[i], RequestedRecord(first)) {
      CreateRejectsOverlap(t, first);
    } else {
      CreateAppends(t, first);
      var t1 := Create(t, first).table;
      assert Conflicts(t1.rows[|t.rows|], RequestedRecord(second));
      CreateRejectsOverlap(t1, second);
    }
  }

  /** An end in the same month as the start passes the date check: with nothing in the way
      the stored period is empty, its end equal to its start. */
  lemma SameMonthEndAccepted(t: Table, req: SubscriptionRequest)
    requires WellFormed(req.startDate) && req.endDate == req.startDate
    requires forall i | 0 <= i < |t.rows| :: t.rows[i].userId != req.userId
    ensures Create(t, req).result == Success(t.nextId)
    ensures Create(t, req).table.rows[|t.rows|].start == Create(t, req).table.rows[|t.rows|].end
  {
    CreateAppends(t, req);
  }

  // ---------------------------------------------------------------------------
  // Reading

  /** The first row with the given id (`QueryRow` reads only the first). */
  function Find(rows: seq<Subscription>, id: nat): (r: Option<Subscription>)
    ensures r.Some? ==> r.value in rows && r.value.id == id
    ensures r.None? <==> forall i | 0 <= i < |rows| :: rows[i].id != id
  {
    if |rows| == 0 then None
    else if rows[0].id == id then Some(rows[0])
    else
      var r := Find(rows[1..], id);
      assert forall i | 1 <= i < |rows| :: rows[i] == rows[1..][i - 1];
      r
  }

  const NotFoundError: Error := Wrap(NotFound, "subscription not found")

  /** `GetByID`: the response for the row with that id, or `NotFound`. */
  function GetByID(t: Table, id: nat): (r: Result<SubscriptionResponse>)
    ensures r.Failure? <==> forall i | 0 <= i < |t.rows| :: t.rows[i].id != id
    ensures r.Failure? ==> r.error.kind == NotFound
    ensures r.Success? ==> exists i | 0 <= i < |t.rows| ::
      t.rows[i].id == id && r.value == NewSubscriptionResponse(t.rows[i])
  {
    match Find(t.rows, id)
    case None => Failure(NotFoundError)
    case Some(sub) => Success(NewSubscriptionResponse(sub))
  }

  /** `GetByUserID`: the responses for the user's rows, in table order; empty, not an
      error, when the user has none. */
  function GetByUserID(t: Table, user: Uuid): (r: seq<SubscriptionResponse>)
    ensures |r| <= |t.rows|
  {
    UserResponses(t.rows, user)
  }

  function UserResponses(rows: seq<Subscription>, user: Uuid): (r: seq<SubscriptionResponse>)
    ensures |r| <= |rows|
  {
    if |rows| == 0 then []
    else
      var rest := UserResponses(rows[1..], user);
      if rows[0].userId == user then [NewSubscriptionResponse(rows[0])] + rest else rest
  }

  /** A response is listed for a user exactly when it is the response for one of that user's
      rows: none of the user's rows is missed and no other user's row slips in. */
  lemma GetByUserIDListsUserRows(t: Table, user: Uuid, x: SubscriptionResponse)
    ensures x in GetByUserID(t, user) <==>
      exists i | 0 <= i < |t.rows| :: t.rows[i].userId == user && x == NewSubscriptionResponse(t.rows[i])
  {
    UserResponsesListsUserRows(t.rows, user, x);
  }

  lemma {:induction false} UserResponsesListsUserRows(rows: seq<Subscription>, user: Uuid, x: SubscriptionResponse)
    ensures x in UserResponses(rows, user) <==>
      exists i | 0 <= i < |rows| :: rows[i].userId == user && x == NewSubscriptionResponse(rows[i])
  {
    if |rows| > 0 {
      var rest := rows[1..];
      UserResponsesListsUserRows(rest, user, x);
      var here := rows[0].userId == user && x == NewSubscriptionResponse(rows[0]);
      var later := exists i | 0 <= i < |rest| :: rest[i].userId == user && x == NewSubscriptionResponse(rest[i]);
      assert x in UserResponses(rows, user) <==> here || later;
      if later {
        var i :| 0 <= i < |rest| && rest[i].userId == user && x == NewSubscriptionResponse(rest[i]);
        assert rows[i + 1] == rest[i];
      }
      if exists i | 0 <= i < |rows| :: rows[i].userId == user && x == NewSubscriptionResponse(rows[i]) {
        var i :| 0 <= i < |rows| && rows[i].userId == user && x == NewSubscriptionResponse(rows[i]);
        if i > 0 {
          assert rest[i - 1] == rows[i];
        }
      }
    }
  }

  /** No two responses in `r` carry the same id. */
  predicate DistinctIds(r: seq<SubscriptionResponse>)
  {
    forall a, b | 0 <= a < b < |r| :: r[a].id != r[b].id
  }

  /** On a consistent table each of the user's rows is listed once: no two listed responses
      share an id, so together with `GetByUserIDListsUserRows` the listing holds exactly one
      response per row of the user. */
  lemma GetByUserIDListsEachRowOnce(t: Table, user: Uuid)
    requires Consistent(t)
    ensures DistinctIds(GetByUserID(t, user))
  {
    UserResponsesDistinct(t.rows, user);
    assert GetByUserID(t, user) == UserResponses(t.rows, user);
  }

  lemma {:induction false} UserResponsesDistinct(rows: seq<Subscription>, user: Uuid)
    requires forall i, j | 0 <= i < j < |rows| :: rows[i].id != rows[j].id
    ensures DistinctIds(UserResponses(rows, user))
  {
    if |rows| > 0 {
      var rest := rows[1..];
      assert forall i | 0 <= i < |rest| :: rest[i] == rows[i + 1];
      UserResponsesDistinct(rest, user);
      var tail := UserResponses(rest, user);
      if rows[0].userId == user {
        forall k | 0 <= k < |tail| ensures tail[k].id != rows[0].id {
          UserResponsesListsUserRows(rest, user, tail[k]);
          var i :| 0 <= i < |rest| && rest[i].userId == user && tail[k] == NewSubscriptionResponse(rest[i]);
          assert rest[i] == rows[i + 1];
        }
        PrependDistinct(NewSubscriptionResponse(rows[0]), tail);
        assert UserResponses(rows, user) == [NewSubscriptionResponse(rows[0])] + tail;
      } else {
        assert UserResponses(rows, user) == tail;
      }
    }
  }

  /** Prepending a response whose id no other carries keeps the ids distinct. */
  lemma PrependDistinct(x: SubscriptionResponse, tail: seq<SubscriptionResponse>)
    requires DistinctIds(tail)
    requires forall k | 0 <= k < |tail| :: tail[k].id != x.id
    ensures DistinctIds([x] + tail)
  {
    var r := [x] + tail;
    forall a, b | 0 <= a < b < |r| ensures r[a].id != r[b].id {
      assert r[b] == tail[b - 1];
      if a > 0 {
        assert r[a] == tail[a - 1];
      }
    }
  }

  /** `GetAll`: a response for every row, in table order. The rows are converted with the
      user-facing mapper, so the deleted flag does not reach the admin. */
  function GetAll(t: Table): (r: seq<SubscriptionResponse>)
    ensures |r| == |t.rows|
    ensures forall i | 0 <= i < |r| :: r[i] == NewSubscriptionResponse(t.rows[i])
  {
    seq(|t.rows|, i requires 0 <= i < |t.rows| => NewSubscriptionResponse(t.rows[i]))
  }

  // ---------------------------------------------------------------------------
  // Renew or extend

  /** The unclassified error `RenewOrExtend` passes on when the select finds no row. */
  const RenewLookupError: Error := Error(Unclassified, "error getting subscription: no rows in result set")

  /** The period a renewal derives from `sub`. The source reads the clock twice: `now` is
      the reading the old end is compared with, `later` the one a lapsed subscription restarts
      at. The new period starts at the old end if that is still after `now`, otherwise at
      `later`, and lasts as long as the old one. */
  function RenewedRecord(sub: Subscription, now: int, later: int): (r: Subscription)
    ensures r.start == (if sub.end > now then sub.end else later)
    ensures r.end - r.start == sub.end - sub.start
    ensures now <= later ==> r.start >= sub.end && r.start >= now
    ensures r.serviceName == sub.serviceName && r.price == sub.price && r.userId == sub.userId
    ensures !r.deleted
  {
    var start := if sub.end > now then sub.end else later;
    Subscription(0, sub.serviceName, sub.price, sub.userId, start, start + (sub.end - sub.start), false)
  }

  /** `RenewOrExtend`: look up the row, derive the next period, insert it. No overlap check. */
  function RenewOrExtend(t: Table, id: nat, now: int, later: int): Step<nat>
  {
    match Find(t.rows, id)
    case None => Step(Failure(RenewLookupError), t)
    case Some(sub) => Insert(t, RenewedRecord(sub, now, later))
  }

  /** An absent id yields an unclassified error and no change. */
  lemma RenewMissing(t: Table, id: nat, now: int, later: int)
    requires forall i | 0 <= i < |t.rows| :: t.rows[i].id != id
    ensures RenewOrExtend(t, id, now, later) == Step(Failure(RenewLookupError), t)
    ensures RenewLookupError.kind == Unclassified
  {
  }

  /** A present id: exactly the record renewed from that row is appended under the next id,
      which is returned; the sequence advances and every existing row is untouched. */
  lemma RenewAppends(t: Table, id: nat, now: int, later: int, i: nat)
    requires Consistent(t)
    requires i < |t.rows| && t.rows[i].id == id
    ensures RenewOrExtend(t, id, now, later) ==
      Step(Success(t.nextId), Table(t.rows + [RenewedRecord(t.rows[i], now, later).(id := t.nextId)], t.nextId + 1))
  {
    var f := Find(t.rows, id);
    var k :| 0 <= k < |t.rows| && t.rows[k] == f.value;
    assert k == i;
  }

  /** With the second clock reading no earlier than the first, the renewed period never
      overlaps the period it was derived from. */
  lemma RenewalFollowsSource(sub: Subscription, now: int, later: int)
    requires now <= later
    ensures !Conflicts(sub, RenewedRecord(sub, now, later)) && !Conflicts(RenewedRecord(sub, now, later), sub)
  {
  }

  lemma RenewPreservesConsistent(t: Table, id: nat, now: int, later: int)
    requires Consistent(t)
    ensures Consistent(RenewOrExtend(t, id, now, later).table)
  {
  }

  /** Renewal skips the overlap check, so it can break `NoOverlaps`: extending January when
      February is already booked makes the new period overlap February. */
  lemma RenewCanOverlap()
    ensures var jan := Subscription(1, "tv", 100, 7, MonthStart(Month(2025, 1)), MonthStart(Month(2025, 2)), false);
      var feb := Subscription(2, "tv", 100, 7, MonthStart(Month(2025, 2)), MonthStart(Month(2025, 3)), false);
      var t := Table([jan, feb], 3);
      var now := MonthStart(Month(2024, 12));
      && Consistent(t) && NoOverlaps(t)
      && RenewOrExtend(t, 1, now, now).result.Success?
      && !NoOverlaps(RenewOrExtend(t, 1, now, now).table)
  {
    var jan := Subscription(1, "tv", 100, 7, MonthStart(Month(2025, 1)), MonthStart(Month(2025, 2)), false);
    var feb := Subscription(2, "tv", 100, 7, MonthStart(Month(2025, 2)), MonthStart(Month(2025, 3)), false);
    var t := Table([jan, feb], 3);
    var now := MonthStart(Month(2024, 12));
    NextStart(Month(2025, 1));
    NextStart(Month(2025, 2));
    NextStart(Month(2024, 12));
    var t' := RenewOrExtend(t, 1, now, now).table;
    assert t'.rows[2] == RenewedRecord(jan, now, now).(id := 3);
    assert Conflicts(t'.rows[1], t'.rows[2]);
  }

  /** An unexpired subscription ending 2025-03-01, renewed on 2025-02-15, is extended from
      2025-03-01 with no gap, for the same duration, whatever the second clock reading. */
  lemma ExtendBeforeExpiry(later: int)
    ensures var sub := Subscription(1, "tv", 100, 7, MonthStart(Month(2025, 2)), MonthStart(Month(2025, 3)), false);
      var now := MonthStart(Month(2025, 2)) + 14 * SecondsPerDay;
      && RenewedRecord(sub, now, later).start == MonthStart(Month(2025, 3))
      && RenewedRecord(sub, now, later).end == MonthStart(Month(2025, 3)) + 28 * SecondsPerDay
  {
    NextStart(Month(2025, 2));
  }

  // ---------------------------------------------------------------------------
  // Cost

  /** The cost query: a user, a service, and the range [from, to] a period must lie within. */
  datatype CostQuery = CostQuery(userId: Uuid, serviceName: string, from: int, to: int)

  /** The cost query's condition: only periods fully inside the range are summed. */
  predicate Counted(row: Subscription, q: CostQuery)
  {
    row.userId == q.userId && row.serviceName == q.serviceName && row.start >= q.from && row.end <= q.to
  }

  /** The sum of prices over the counted rows. */
  function CostOf(rows: seq<Subscription>, q: CostQuery): int
  {
    if |rows| == 0 then 0
    else (if Counted(rows[0], q) then rows[0].price else 0) + CostOf(rows[1..], q)
  }

  lemma {:induction false} CostOfSnoc(rows: seq<Subscription>, x: Subscription, q: CostQuery)
    ensures CostOf(rows + [x], q) == CostOf(rows, q) + (if Counted(x, q) then x.price else 0)
  {
    if |rows| > 0 {
      assert (rows + [x])[1..] == rows[1..] + [x];
      CostOfSnoc(rows[1..], x, q);
    }
  }

  const TotalError: Error := Error(Unclassified, "error getting total: cannot scan NULL into *int")

  /** `GetCost`: `SUM(price)` over the counted rows. Over no rows the sum is SQL NULL, which
      cannot be scanned into an int, so the call fails instead of returning 0. */
  method GetCost(t: Table, q: CostQuery) returns (r: Result<int>)
    ensures r.Success? <==> exists i | 0 <= i < |t.rows| :: Counted(t.rows[i], q)
    ensures r.Success? ==> r.value == CostOf(t.rows, q)
    ensures r.Failure? ==> r == Failure(TotalError)
  {
    var total := 0;
    var any := false;
    var i := 0;
    while i < |t.rows|
      invariant 0 <= i <= |t.rows|
      invariant total == CostOf(t.rows[..i], q)
      invariant any <==> exists j | 0 <= j < i :: Counted(t.rows[j], q)
    {
      CostOfSnoc(t.rows[..i], t.rows[i], q);
      assert t.rows[..i + 1] == t.rows[..i] + [t.rows[i]];
      if Counted(t.rows[i], q) {
        total := total + t.rows[i].price;
        any := true;
      }
      i := i + 1;
    }
    assert t.rows[..i] == t.rows;
    if any {
      r := Success(total);
    } else {
      r := Failure(TotalError);
    }
  }

  /** After a successful `Create` the cost of any query grows by the new record's price if the
      query counts it and not at all otherwise, so a period that only partly overlaps the
      range adds nothing. */
  lemma CostAfterCreate(t: Table, req: SubscriptionRequest, q: CostQuery)
    requires Create(t, req).result.Success?
    ensures DatesAccepted(req)
    ensures CostOf(Create(t, req).table.rows, q) ==
      CostOf(t.rows, q) + (if Counted(RequestedRecord(req), q) then req.price else 0)
  {
    if !DatesAccepted(req) {
      CreateRejectsBadDates(t, req);
    } else if exists i | 0 <= i < |t.rows| :: Conflicts(t.rows[i], RequestedRecord(req)) {
      CreateRejectsOverlap(t, req);
    } else {
      CreateAppends(t, req);
      CostOfSnoc(t.rows, RequestedRecord(req).(id := t.nextId), q);
    }
  }

  // ---------------------------------------------------------------------------
  // Delete

  /** The rows left after `DELETE ... WHERE id = ?`, in their original order. */
  function RemoveId(rows: seq<Subscription>, id: nat): (r: seq<Subscription>)
    ensures forall x :: x in r <==> x in rows && x.id != id
    ensures |r| <= |rows|
  {
    if |rows| == 0 then []
    else
      var rest := RemoveId(rows[1..], id);
      assert forall x :: x in rows <==> x == rows[0] || x in rows[1..];
      if rows[0].id == id then rest else [rows[0]] + rest
  }

  /** `Delete`: a hard delete that succeeds whether or not the id exists. */
  function Delete(t: Table, id: nat): (s: Step<()>)
    ensures s.result.Success?
    ensures s.table.nextId == t.nextId
    ensures forall x :: x in s.table.rows <==> x in t.rows && x.id != id
  {
    Step(Success(()), Table(RemoveId(t.rows, id), t.nextId))
  }

  /** Deleting an id that is not there changes nothing. */
  lemma {:induction false} DeleteAbsentIsNoOp(rows: seq<Subscription>, id: nat)
    requires forall i | 0 <= i < |rows| :: rows[i].id != id
    ensures RemoveId(rows, id) == rows
  {
    if |rows| > 0 {
      DeleteAbsentIsNoOp(rows[1..], id);
    }
  }

  /** Deleting one id leaves what every other id reads unchanged. */
  lemma {:induction false} DeleteKeepsOthers(rows: seq<Subscription>, id: nat, other: nat)
    requires other != id
    ensures Find(RemoveId(rows, id), other) == Find(rows, other)
  {
    if |rows| > 0 {
      DeleteKeepsOthers(rows[1..], id, other);
    }
  }

  /** After `Delete`, the id reads as not found and every other id reads as before. */
  lemma GetAfterDelete(t: Table, id: nat, other: nat)
    ensures GetByID(Delete(t, id).table, id).Failure?
    ensures GetByID(Delete(t, id).table, id).error.kind == NotFound
    ensures other != id ==> GetByID(Delete(t, id).table, other) == GetByID(t, other)
  {
    if other != id {
      DeleteKeepsOthers(t.rows, id, other);
    }
  }

  /** `p` holds of every pair of rows, taken in table order. */
  predicate Pairwise(rows: seq<Subscription>, p: (Subscription, Subscription) -> bool)
  {
    forall i, j | 0 <= i < j < |rows| :: p(rows[i], rows[j])
  }

  /** Two rows that may share a table: distinct ids and no conflicting periods. */
  predicate Separated(a: Subscription, b: Subscription)
  {
    a.id != b.id && !Conflicts(a, b)
  }

  /** Rows separated pairwise are exactly the id half of `Consistent` together with `NoOverlaps`. */
  lemma SeparatedIsInvariants(t: Table)
    ensures Pairwise(t.rows, Separated) <==>
      (forall i, j | 0 <= i < j < |t.rows| :: t.rows[i].id != t.rows[j].id) && NoOverlaps(t)
  {
  }

  /** Removing rows keeps every pairwise property: the rows left are a subsequence. */
  lemma {:induction false} RemoveIdKeepsPairwise(rows: seq<Subscription>, id: nat, p: (Subscription, Subscription) -> bool)
    requires Pairwise(rows, p)
    ensures Pairwise(RemoveId(rows, id), p)
  {
    if |rows| > 0 {
      var rest := rows[1..];
      assert Pairwise(rest, p) by {
        assert forall i | 0 <= i < |rest| :: rest[i] == rows[i + 1];
      }
      RemoveIdKeepsPairwise(rest, id, p);
      if rows[0].id != id {
        var r := RemoveId(rest, id);
        forall j | 0 <= j < |r| ensures p(rows[0], r[j]) {
          assert r[j] in rest;
          var k :| 0 <= k < |rest| && rest[k] == r[j];
          assert rows[k + 1] == r[j];
        }
        var full := [rows[0]] + r;
        forall a, b | 0 <= a < b < |full| ensures p(full[a], full[b]) {
          if a > 0 {
            assert full[a] == r[a - 1] && full[b] == r[b - 1];
          }
        }
      }
    }
  }

  /** `Delete` keeps every consistent table consistent, overlapping periods or not. */
  lemma DeleteKeepsConsistent(t: Table, id: nat)
    requires Consistent(t)
    ensures Consistent(Delete(t, id).table)
  {
    var t' := Delete(t, id).table;
    var distinct := (a: Subscription, b: Subscription) => a.id != b.id;
    assert Pairwise(t.rows, distinct);
    RemoveIdKeepsPairwise(t.rows, id, distinct);
    assert Pairwise(t'.rows, distinct);
    forall a | 0 <= a < |t'.rows|
      ensures 0 < t'.rows[a].id < t'.nextId && t'.rows[a].start <= t'.rows[a].end && !t'.rows[a].deleted
    {
      assert t'.rows[a] in t.rows;
    }
  }

  /** On a table without overlaps, `Delete` also keeps same-user, same-service periods disjoint. */
  lemma DeletePreservesInvariants(t: Table, id: nat)
    requires Consistent(t) && NoOverlaps(t)
    ensures Consistent(Delete(t, id).table) && NoOverlaps(Delete(t, id).table)
  {
    var t' := Delete(t, id).table;
    DeleteKeepsConsistent(t, id);
    SeparatedIsInvariants(t);
    RemoveIdKeepsPairwise(t.rows, id, Separated);
    SeparatedIsInvariants(t');
  }

  /** The delete is physical: the admin listing no longer shows the id. */
  lemma DeletedIdLeavesListing(t: Table, id: nat)
    ensures forall i | 0 <= i < |GetAll(Delete(t, id).table)| :: GetAll(Delete(t, id).table)[i].id != id
  {
    var rows := Delete(t, id).table.rows;
    assert forall i | 0 <= i < |rows| :: rows[i] in rows;
  }

  // ---------------------------------------------------------------------------
  // Reachable tables

  /** The operations that change the table. */
  datatype Op =
    | CreateOp(req: SubscriptionRequest)
    | RenewOp(id: nat, now: int, later: int)
    | DeleteOp(id: nat)

  function Apply(t: Table, op: Op): Table
  {
    match op
    case CreateOp(req) => Create(t, req).table
    case RenewOp(id, now, later) => RenewOrExtend(t, id, now, later).table
    case DeleteOp(id) => Delete(t, id).table
  }

  /** The table left by running `ops`, in order, on a fresh relation. */
  function Replay(ops: seq<Op>): Table
  {
    if |ops| == 0 then Empty else Apply(Replay(ops[..|ops| - 1]), ops[|ops| - 1])
  }

  /** Every table built from `Empty` by any sequence of creates, renewals and deletes is
      consistent, overlapping periods included. */
  lemma {:induction false} ReplayConsistent(ops: seq<Op>)
    ensures Consistent(Replay(ops)) && Replay(ops).nextId > 0
  {
    if |ops| == 0 {
      EmptyConsistent();
    } else {
      var t := Replay(ops[..|ops| - 1]);
      ReplayConsistent(ops[..|ops| - 1]);
      match ops[|ops| - 1]
      case CreateOp(req) => CreateKeepsConsistent(t, req);
      case RenewOp(id, now, later) => RenewPreservesConsistent(t, id, now, later);
      case DeleteOp(id) => DeleteKeepsConsistent(t, id);
    }
  }
}

=== FILE: write_error.dfy ===
/**
 `utils.WriteError`: the classification of an error into the HTTP status, the
 message and the details of the JSON error body.

 `details` is always present in the body: Go's `omitempty` drops only a nil
 interface, and the handler always stores a (possibly empty) string in it.
 */
module HttpErrors {
  import opened Errors

  const StatusBadRequest: int := 400
  const StatusUnauthorized: int := 401
  const StatusNotFound: int := 404
  const StatusConflict: int := 409
  const StatusInternalServerError: int := 500

  const DefaultMessage: string := "An error occurred"
  const InternalDetails: string := "Internal server error"

  datatype Reply = Reply(status: int, message: string, details: string)

  /** The classifier: the first case whose sentinel the error wraps decides; an error that
      wraps none falls to the default case. */
  function WriteError(e: Error): (r: Reply)
    ensures r.status in {StatusBadRequest, StatusNotFound, StatusConflict, StatusInternalServerError}
    ensures r.status == StatusBadRequest <==> e.kind in {DecodingJSON, InvalidInput}
    ensures r.status == StatusNotFound <==> e.kind == NotFound
    ensures r.status == StatusConflict <==> e.kind == AlreadyExists
    ensures r.status == StatusInternalServerError <==> e.kind in {EncodingJSON, Unauthorized, Unclassified}
    ensures e.kind in {InvalidInput, AlreadyExists} ==> r.details == e.text
    ensures e.kind !in {InvalidInput, AlreadyExists} ==> r.details in {"", InternalDetails}
  {
    match e.kind
    case DecodingJSON => Reply(StatusBadRequest, "Invalid Request Format", "")
    case EncodingJSON => Reply(StatusInternalServerError, "Failed to process Response", "")
    case InvalidInput => Reply(StatusBadRequest, "Validation failed", e.text)
    case NotFound => Reply(StatusNotFound, "No subscription found", "")
    case AlreadyExists => Reply(StatusConflict, "Validation failed", e.text)
    case _ => Reply(StatusInternalServerError, DefaultMessage, InternalDetails)
  }

  /** Only validation and conflict errors show their text: for every other kind the reply
      is the same whatever the error says, so datastore messages never reach the client. */
  lemma TextHiddenUnlessValidation(k: Kind, t1: string, t2: string)
    requires k !in {InvalidInput, AlreadyExists}
    ensures WriteError(Error(k, t1)) == WriteError(Error(k, t2))
  {
  }

  /** For the two kinds that show their text, different texts give different replies. */
  lemma ValidationTextShown(k: Kind, t1: string, t2: string)
    requires k in {InvalidInput, AlreadyExists} && t1 != t2
    ensures WriteError(Error(k, t1)) != WriteError(Error(k, t2))
  {
  }

  /** `ErrUnauthorized` has no case of its own: it gets the default 500 reply. */
  lemma UnauthorizedIsServerError(text: string)
    ensures WriteError(Error(Unauthorized, text)) == Reply(StatusInternalServerError, DefaultMessage, InternalDetails)
  {
  }

  /** The classifier with the case the admin gate's documentation relies on: an error
      wrapping `ErrUnauthorized` answers 401. Every other kind is classified as before. */
  function WriteErrorIntended(e: Error): (r: Reply)
    ensures e.kind == Unauthorized <==> r.status == StatusUnauthorized
    ensures e.kind != Unauthorized ==> r == WriteError(e)
  {
    if e.kind == Unauthorized then Reply(StatusUnauthorized, "Unauthorized", "")
    else WriteError(e)
  }
}
